=== FILE: README.md ===
# MyAdvisor backend — a Dafny model

MyAdvisor is an academic-advising assistant. Its FastAPI backend
(`backend/backend.py`) answers a student's question in four steps:

1. It looks the student up in an in-memory profile store.
2. It queries two vector-store collections, "courses" and "requirements".
3. It renders a prompt template from the profile and the retrieved text.
4. It sends the prompt to a hosted language model.

The backend also has endpoints to set and read profiles, to search
courses, and to list degree requirements.

This project models the deterministic bookkeeping around the vector store
and the language model:

- **Profile store** (`profiles.dfy`, module `Profiles`): a map from user id
  to a sparse profile, seeded with the demonstration profile under
  `"default"`.
  - Lookups of unknown ids fall back to that profile.
  - `set_profile` stores exactly three fields: major, completed courses and
    current quarter.
  - The `UserProfile` request body supplies its own defaults.
- **Retrieval context and hit lists** (`retrieval.dfy`, module `Retrieval`):
  - The vector store is an oracle, a total function from query text and
    result count to three parallel outer lists (ids, documents, metadata).
  - The chat context joins the first document list with blank lines. It
    uses a fixed placeholder only when the outer list is empty.
  - Search and requirements hits zip the parallel lists. Search texts are
    cut to 200 characters followed by `"..."`. The lists can raise
    `IndexError`; the model returns that as a `Failure`.
- **Prompt assembly** (`prompt.dfy`, module `Prompt`):
  - The chat template is literal text interleaved with `{name}`
    placeholders.
  - It is rendered by one left-to-right substitution, which fails on a
    missing variable the way Python's formatter does.
  - Eleven of the fourteen variables come from the profile through
    per-field fallbacks: count, comma-joined course lists, bullet lines for
    highlights. The other three are the two retrieval contexts and the
    question.
- **Request flows** (`backend.dfy`, module `Backend`): `chat` up to the
  rendered prompt, `search_courses`, and `get_requirements`.
- **String operations** (`strings.dfy`, module `Strings`): the Python
  operations the backend uses, `sep.join` and `str(n)`, with their laws.
  Also a substring relation and a one-character `split`, which the model
  uses to state facts: what a prompt carries, and reading joined lines
  back.
- `wrappers.dfy` (module `Wrappers`) holds `Option` and `Result`.

The model's strings are sequences of Unicode scalar values, so
`doc[:200]` counts code points, as in Python. A Python `str` may also hold
lone surrogate code points (U+D800 to U+DFFF), which the model cannot
represent. No operation modelled here treats them differently from any
other code point.

Two details of the code that the model keeps:

- **Quarter fallback.** The chat prompt's quarter fallback is
  `"Autumn 2025"`. `"Winter 2025"` is only the default of the
  `UserProfile` request body.
- **Retrieval placeholder.** The "no relevant courses/requirements found"
  placeholder is chosen only when the outer `documents` list is empty. An
  answer whose first list is empty gives an empty context.

## Model

| member | source | states |
|---|---|---|
| `Profiles.ProfileRequestOf` | backend/backend.py:98-101 | fields the client sends are kept; omitted ones become major "CS", no completed courses, quarter "Winter 2025" |
| `Profiles.StoredProfile` | backend/backend.py:114-118 | the stored dict has exactly the request's major, completed courses and quarter, and no other key |
| `Profiles.GetProfile` | backend/backend.py:122-124 | a stored id reads its own profile; any other id reads the demonstration profile |
| `Profiles.SetProfile` | backend/backend.py:111-119 | the write adds the id to the keys, stores the projection under it, leaves every other key's profile unchanged, and echoes "success" with what a read now returns |
| `Profiles.GetAfterSet` | backend/backend.py:114-124 | after `set_profile(u, p)`, reading `u` gives the projection of `p` and reading any other id gives what it gave before |
| `Profiles.SetProfileLastWriteWins` | backend/backend.py:114-118 | a second write to an id replaces the first completely |
| `Profiles.SetProfileCommutes` | backend/backend.py:114-118 | writes to different ids commute |
| `Profiles.InitialStoreReadsDefault` | backend/backend.py:86-88 | at start "default" is bound to the demonstration profile, and every id reads as that profile |
| `Profiles.LastWriteIsLast` | backend/backend.py:113-118 | the request `LastWrite` finds is that of a write to the id with no later write to it |
| `Profiles.ReplayLookup` | backend/backend.py:111-124 | after any history of writes from start, an id reads as the projection of its last write, or the demonstration profile if it was never written |
| `Strings.JoinLength` | backend/backend.py:146 | `sep.join(xs)` is as long as the items plus one separator per neighbouring pair, and begins with the first item |
| `Strings.JoinHasLayout` | backend/backend.py:146 | `sep.join(xs)` has the join's length, item i starting after the items before it and one separator behind each of them, and a separator right after every item but the last |
| `Strings.JoinLayoutUnique` | backend/backend.py:146 | any string with that layout is `sep.join(xs)`, so the layout fixes the joined text exactly |
| `Strings.JoinContainsItems` | backend/backend.py:208-209 | every item of a list occurs in its join |
| `Strings.NatToString` | backend/backend.py:207 | `str(n)` for a count: canonical decimal text (digits only, no leading zero except "0"), starting with '0' exactly when n is 0 |
| `Strings.ParseNatToString` | backend/backend.py:207 | reading back the decimal text of a count gives the count |
| `Strings.NatToStringParse` | backend/backend.py:207 | every canonical decimal string is the text of its value, so decimal rendering is a bijection onto canonical strings |
| `Retrieval.FormatContext` | backend/backend.py:146-147 | no outer list gives the placeholder; an empty first list gives ""; otherwise the context holds the first list's documents in order with "\n\n" between neighbours and nothing else (join layout) |
| `Retrieval.ContextDeterminedByLayout` | backend/backend.py:146 | any text with the blank-line join layout of the first list is the context, so the layout clause leaves no freedom |
| `Retrieval.ContextIgnoresLaterLists` | backend/backend.py:146 | only the first result list contributes to the context |
| `Retrieval.Preview` | backend/backend.py:231 | the preview is at most 203 characters and ends in "..."; before that it is the whole document when that has at most 200 characters, else its first 200 |
| `Retrieval.Hits` | backend/backend.py:228-235 | fails with IndexError exactly when the lists cannot be indexed; otherwise one hit per id, in order, with matching id, metadata and (previewed or verbatim) text |
| `Retrieval.SearchHitText` | backend/backend.py:231 | a search hit's text without its "..." is a prefix of the document; it is the whole document exactly when that has at most 200 characters, and otherwise the text is 203 characters whose first 200 are the document's |
| `Prompt.Render` | backend/backend.py:196-214 | rendering succeeds exactly when every placeholder has a value; a failure names a placeholder without one |
| `Prompt.RenderContainsValue` | backend/backend.py:150-194 | the value of every placeholder occurs in the rendered text |
| `Prompt.RenderPlaceholdersIsText` | backend/backend.py:150-194 | rendering each placeholder as its own `{name}` gives back the template text |
| `Prompt.ChatPosition` | backend/backend.py:150-194 | every one of the fourteen fields has a placeholder in the chat template |
| `Prompt.ChatPromptCarries` | backend/backend.py:150-214 | with all fields bound the chat template renders, and every field's value occurs in the prompt |
| `Prompt.RenderChat` | backend/backend.py:196-214 | the rendered chat prompt contains the value of every field |
| `Prompt.Bullets` | backend/backend.py:206 | one line `"- " + h` per highlight, in order |
| `Prompt.HighlightsText` | backend/backend.py:206 | no highlights (absent or empty) give ""; otherwise the text is the bullet lines `"- " + h`, in order, with "\n" between neighbours and nothing else (join layout) |
| `Prompt.HighlightsTextEmpty` | backend/backend.py:206 | the highlights text is empty exactly when the profile has no highlights (absent or an empty list) |
| `Prompt.HighlightsRoundTrip` | backend/backend.py:206 | when no highlight has a line break, the highlights can be read back from their bullet lines |
| `Prompt.CourseListText` | backend/backend.py:208-209 | an absent or empty list renders as the fallback ("None listed" / "None"); otherwise the text is the courses in order with ", " between neighbours (join layout) |
| `Prompt.CompletedCountText` | backend/backend.py:207 | `num_completed` is canonical decimal text whose value is the length of the completed-course list (0 when absent) |
| `Prompt.CreditsText` | backend/backend.py:205 | absent credits give "N/A"; present credits give canonical decimal text of their value |
| `Prompt.PromptVariables` | backend/backend.py:199-214 | every template field is bound, whatever keys the profile has |
| `Prompt.ChatPromptListsCompleted` | backend/backend.py:207-208 | every completed course of the profile occurs in the rendered prompt |
| `Prompt.ChatPromptFor` | backend/backend.py:199-214 | the prompt carries the value of every one of the fourteen template variables; in particular the question, both contexts, the profile's name, major and quarter (or "Student", "CS", "Autumn 2025"), and every completed course |
| `Prompt.ChatTemplateRenders` | backend/backend.py:199-214 | the chat template renders for every profile, however sparse |
| `Prompt.StoredProfileVariables` | backend/backend.py:200-210 | for a profile written by `set_profile`: name "Student", class standing "Junior", GPA and credits "N/A", no highlights, current courses "None", the default interests; major, quarter and course count come from the request |
| `Prompt.CourseListAmbiguous` | backend/backend.py:208 | a list holding the single course "None listed" renders like an empty list; only `num_completed` tells them apart |
| `Backend.ChatRequestOf` | backend/backend.py:91-93 | a chat request without a user id is for "default" |
| `Backend.CourseContextOf` | backend/backend.py:134-146 | the course collection is queried with the message for 5 results; no result lists give "No relevant courses found.", an empty first list gives "", otherwise the documents joined by blank lines (join layout) |
| `Backend.RequirementsContextOf` | backend/backend.py:140-147 | the requirement collection is queried with the message for 3 results; no result lists give "No relevant requirements found.", an empty first list gives "", otherwise the documents joined by blank lines (join layout) |
| `Backend.ChatPrompt` | backend/backend.py:130-214 | the chat prompt for a request carries its question, both retrieval contexts, and the requesting profile's name, major, quarter (or fallbacks) and completed courses |
| `Backend.ChatAfterSetProfile` | backend/backend.py:114-214 | after `set_profile(u, p)`, u's prompt calls the student "Student" and carries p's major, quarter, every completed course and the question |
| `Backend.ChatUnknownUser` | backend/backend.py:131 | for an id with no stored profile, the chat prompt is exactly the one rendered for the demonstration profile with the same contexts and question (so it names "Nandini") |
| `Backend.ChatWithoutRetrievalResults` | backend/backend.py:146-147 | when a collection returns no result lists, the prompt still renders and carries that collection's placeholder |
| `Backend.SearchCourses` | backend/backend.py:218-236 | fails exactly when the course answer cannot be indexed (n_results defaults to 10); otherwise echoes the query, one hit per id in order, each with the id, the metadata unchanged, and the text `Preview` of the document (its first 200 characters followed by "...") |
| `Backend.GetRequirements` | backend/backend.py:238-255 | queries "CS major requirements" for 20 results; fails exactly when the answer cannot be indexed; otherwise one hit per id in order with id, text and metadata unchanged |

## Left out

- HTTP plumbing is not modelled: FastAPI routing, CORS, pydantic type validation, `uvicorn` startup and `dotenv`. The request bodies appear only as their field defaults.
- The status endpoint `/` is not modelled. It only reports the collections' `count()`, which belongs to the vector store.
- The vector store (ChromaDB) is an oracle parameter, a total function of query text and result count. Its own failures are not modelled: a missing collection, an invalid `n_results`, an unreachable store. Nor are its embedding and similarity ranking.
- The language model call (`prompt | llm`, Gemini, temperature 0.7) is not modelled. The model stops at the rendered prompt string; the answer text is external.
- The GPA is a float in the source; here it is its display text ("3.38"). No arithmetic is done on it.
- Lone surrogate code points, which a Python `str` (and so a JSON request body) may hold, are not representable in the model's strings. Every modelled operation treats a code point the same whatever its value.
- Concurrent access to the shared `users` dict is not modelled. The store is a value, and each operation is one step.
- `from_template`'s parsing of the template text is not modelled. The chat template is given directly as its segment list; `Prompt.RenderPlaceholdersIsText` ties that list back to the text.
- The ingestion jobs (`backend/vector db/create_course_db.py`, `backend/vector db/create_requirements_db.py`) are not part of this model. They are offline batch jobs that fill the vector store.
- The React frontend is not part of this model. It is UI state, navigation, timers and `fetch`.
- Backend.ChatPrompt: states which values the prompt carries, not its exact text; the exact text is the template rendered with `Prompt.PromptVariables`, which is the member's definition.
- Prompt.CourseListText: gives no read-back from the text to the list. Course names may themselves contain ", ", so the join cannot be inverted in general; the text itself is fixed exactly by the layout clause.
- Prompt.ChatPromptFor: states the value of every variable the prompt carries, not the prompt's exact text. The exact text is the chat template rendered with `Prompt.PromptVariables`, which is the member's definition.

=== FILE: backend.dfy ===
/** The request flows of the advising backend, up to the point where the
    rendered prompt would be handed to the language model: `chat`,
    `search_courses` and `get_requirements`. The two vector-store
    collections are oracles passed in as parameters. */
module Backend {
  import opened Wrappers
  import opened Strings
  import opened Profiles
  import opened Retrieval
  import opened Prompt

  /* ---------------------------------------------------------------- */
  /* chat                                                              */
  /* ---------------------------------------------------------------- */

  datatype ChatRequest = ChatRequest(message: string, userId: string)

  /** The `ChatRequest` body, with `user_id` defaulting to "default". */
  function ChatRequestOf(message: string, userId: Option<string>): (req: ChatRequest)
    ensures req.message == message
    ensures userId.Some? ==> req.userId == userId.value
    ensures userId.None? ==> req.userId == "default"
  {
    ChatRequest(message, userId.GetOr(DefaultUserId))
  }

  const ChatCourseResults: int := 5
  const ChatRequirementResults: int := 3

  /** The course context of a chat turn: the course collection queried
      with the message for 5 results. */
  function CourseContextOf(req: ChatRequest, courses: Oracle): (context: string)
    ensures var docs := courses(req.message, 5).documents;
      && (|docs| == 0 ==> context == "No relevant courses found.")
      && (|docs| > 0 && |docs[0]| == 0 ==> context == "")
      && (|docs| > 0 && |docs[0]| > 0 ==> JoinLayout("\n\n", docs[0], context))
  {
    FormatContext(courses(req.message, ChatCourseResults).documents, NoCourses)
  }

  /** The requirements context of a chat turn: the requirement collection
      queried with the message for 3 results. */
  function RequirementsContextOf(req: ChatRequest, requirements: Oracle): (context: string)
    ensures var docs := requirements(req.message, 3).documents;
      && (|docs| == 0 ==> context == "No relevant requirements found.")
      && (|docs| > 0 && |docs[0]| == 0 ==> context == "")
      && (|docs| > 0 && |docs[0]| > 0 ==> JoinLayout("\n\n", docs[0], context))
  {
    FormatContext(requirements(req.message, ChatRequirementResults).documents, NoRequirements)
  }

  /** The prompt `chat` sends to the language model for `req`: the chat
      template rendered for the requesting user's profile (the
      demonstration profile when the id is unknown) and both retrieval
      contexts. It always renders, and it carries the question, both
      contexts, the profile's name, major and quarter (or their fallbacks)
      and every completed course. */
  function ChatPrompt(store: Store, req: ChatRequest, courses: Oracle, requirements: Oracle): (prompt: string)
    ensures IsInfix(req.message, prompt)
    ensures IsInfix(CourseContextOf(req, courses), prompt)
    ensures IsInfix(RequirementsContextOf(req, requirements), prompt)
    ensures var user := GetProfile(store, req.userId);
      && IsInfix(user.name.GetOr("Student"), prompt)
      && IsInfix(user.major.GetOr("CS"), prompt)
      && IsInfix(user.currentQuarter.GetOr("Autumn 2025"), prompt)
      && (user.completedCourses.Some? ==>
            forall i :: 0 <= i < |user.completedCourses.value| ==>
              IsInfix(user.completedCourses.value[i], prompt))
  {
    ChatPromptFor(GetProfile(store, req.userId), CourseContextOf(req, courses),
                  RequirementsContextOf(req, requirements), req.message)
  }

  /** After `set_profile(u, p)`, a chat turn of `u` is built from exactly
      `p`'s three fields plus fallbacks: the student is called "Student",
      and the prompt carries `p`'s major, quarter, every completed course
      and the question. */
  lemma ChatAfterSetProfile(store: Store, userId: string, p: ProfileRequest, question: string,
                            courses: Oracle, requirements: Oracle)
    ensures var store' := SetProfile(store, userId, p).store;
            var req := ChatRequest(question, userId);
            var prompt := ChatPrompt(store', req, courses, requirements);
            && GetProfile(store', userId).name.GetOr("Student") == "Student"
            && IsInfix(question, prompt)
            && IsInfix(p.major, prompt)
            && IsInfix(p.currentQuarter, prompt)
            && forall i :: 0 <= i < |p.completedCourses| ==> IsInfix(p.completedCourses[i], prompt)
  {
  }

  /** An id with no stored profile chats as the demonstration student: its
      prompt is the one rendered for the demonstration profile. */
  lemma ChatUnknownUser(store: Store, req: ChatRequest, courses: Oracle, requirements: Oracle)
    requires req.userId !in store
    ensures ChatPrompt(store, req, courses, requirements)
         == ChatPromptFor(DefaultProfile, CourseContextOf(req, courses),
                          RequirementsContextOf(req, requirements), req.message)
    ensures IsInfix("Nandini", ChatPrompt(store, req, courses, requirements))
  {
  }

  /** When a collection returns no result lists, the prompt still renders
      and carries that collection's placeholder. */
  lemma ChatWithoutRetrievalResults(store: Store, req: ChatRequest, courses: Oracle, requirements: Oracle)
    ensures |courses(req.message, 5).documents| == 0 ==>
      IsInfix("No relevant courses found.", ChatPrompt(store, req, courses, requirements))
    ensures |requirements(req.message, 3).documents| == 0 ==>
      IsInfix("No relevant requirements found.", ChatPrompt(store, req, courses, requirements))
  {
  }

  /* ---------------------------------------------------------------- */
  /* search_courses / get_requirements                                 */
  /* ---------------------------------------------------------------- */

  const DefaultSearchResults: int := 10

  datatype SearchResponse = SearchResponse(query: string, results: seq<Hit>)

  /** `search_courses`: the course collection's hits for `query`, each text
      cut to a 200-character preview. `n_results` defaults to 10. */
  function SearchCourses(courses: Oracle, query: string, nResults: Option<int>): (r: Result<SearchResponse, Error>)
    ensures var res := courses(query, nResults.GetOr(10));
      && (r.Success? <==> Indexable(res))
      && (r.Success? ==>
            && r.value.query == query
            && |r.value.results| == |res.ids[0]|
            && forall i :: 0 <= i < |r.value.results| ==>
                 && r.value.results[i].id == res.ids[0][i]
                 && r.value.results[i].metadata == res.metadatas[0][i]
                 && r.value.results[i].text == Preview(res.documents[0][i])
                 && 3 <= |r.value.results[i].text| <= 203
                 && r.value.results[i].text[..|r.value.results[i].text| - 3] <= res.documents[0][i]
                 && r.value.results[i].text[|r.value.results[i].text| - 3..] == "...")
  {
    var res := courses(query, nResults.GetOr(DefaultSearchResults));
    match Hits(res, true)
    case Failure(e) => Failure(e)
    case Success(hits) =>
      assert forall i :: 0 <= i < |hits| ==> hits[i].text[..|hits[i].text| - 3] <= res.documents[0][i] by {
        forall i | 0 <= i < |hits| ensures hits[i].text[..|hits[i].text| - 3] <= res.documents[0][i] {
          SearchHitText(res, i);
        }
      }
      Success(SearchResponse(query, hits))
  }

  const RequirementsQuery: string := "CS major requirements"
  const RequirementsResults: int := 20

  /** `get_requirements`: the requirement collection's hits for the fixed
      canonical query, texts unchanged. */
  function GetRequirements(requirements: Oracle): (r: Result<seq<Hit>, Error>)
    ensures var res := requirements("CS major requirements", 20);
      && (r.Success? <==> Indexable(res))
      && (r.Success? ==>
            && |r.value| == |res.ids[0]|
            && forall i :: 0 <= i < |r.value| ==>
                 r.value[i] == Hit(res.ids[0][i], res.documents[0][i], res.metadatas[0][i]))
  {
    Hits(requirements(RequirementsQuery, RequirementsResults), false)
  }
}

=== FILE: profiles.dfy ===
/** The profile store of the advising backend: a process-lifetime map from
    user id to a student profile, seeded with a demonstration profile under
    the key "default", written by `set_profile` and read by `get_profile`
    and `chat`.

    A stored profile is a Python dict whose keys vary: the demonstration
    profile has eleven of them, a profile written by `set_profile` has
    three. `Profile` therefore holds one `Option` per key of the
    demonstration profile; `None` is an absent key. */
module Profiles {
  import opened Wrappers

  datatype Profile = Profile(
    name: Option<string>,
    studentId: Option<string>,
    major: Option<string>,
    classStanding: Option<string>,
    currentQuarter: Option<string>,
    /** The GPA float, kept as the text Python's `str` gives it. */
    cumulativeGpa: Option<string>,
    totalCredits: Option<nat>,
    completedCourses: Option<seq<string>>,
    currentCourses: Option<seq<string>>,
    academicHighlights: Option<seq<string>>,
    interests: Option<string>)

  /** The hard-coded demonstration profile (`DEFAULT_USER_PROFILE`). */
  const DefaultProfile: Profile := Profile(
    name := Some("Nandini"),
    studentId := Some("2365887"),
    major := Some("Statistics (Data Science) and Computer Science (Double Major)"),
    classStanding := Some("Junior"),
    currentQuarter := Some("Autumn 2025"),
    cumulativeGpa := Some("3.38"),
    totalCredits := Some(126),
    completedCourses := Some([
      "CHEM 142", "CHEM 152", "CSE 121", "ECON 200", "ECON 201",
      "MATH 124", "MATH 125", "STAT 290",
      "CSE 122", "CSE 190", "INFO 103", "MATH 126",
      "CSE 123", "ENGL 131", "MATH 208",
      "CSE 311", "CSE 331", "LING 269",
      "ARCH 350", "CSE 332", "PSYCH 210",
      "CSE 312", "CSE 351", "CSE 391", "STAT 311", "STAT 394",
      "CSE 333", "CSE 421", "CSE 490", "MATH 224", "MUSIC 116",
      "ART H 273"]),
    currentCourses := Some(["ENGL 288", "STAT 302", "STAT 341", "CSE 473"]),
    academicHighlights := Some([
      "Dean's List (Winter 2025)",
      "Strong performance in probability and statistics (4.0 in STAT 394)",
      "Completed core CS requirements: CSE 311, 312, 331, 332, 333, 351, 421",
      "Completed Statistics core: STAT 311, 394"]),
    interests := Some("Double major in Statistics (Data Science) and Computer Science, with diverse interests in linguistics, architecture, psychology, music theory, and art history"))

  /** The key the store is seeded with, and the user id a chat request
      carries when it names none. */
  const DefaultUserId: string := "default"

  type Store = map<string, Profile>

  /** The store at process start. */
  const InitialStore: Store := map[DefaultUserId := DefaultProfile]

  /* ---------------------------------------------------------------- */
  /* The `UserProfile` request body                                    */
  /* ---------------------------------------------------------------- */

  datatype ProfileRequest = ProfileRequest(
    major: string,
    completedCourses: seq<string>,
    currentQuarter: string)

  const RequestDefaultMajor: string := "CS"
  const RequestDefaultQuarter: string := "Winter 2025"

  /** The request body as validated, with the model's defaults filled in
      for the fields the client omitted (`None`). */
  function ProfileRequestOf(major: Option<string>, completedCourses: Option<seq<string>>,
                            currentQuarter: Option<string>): (req: ProfileRequest)
    ensures major.Some? ==> req.major == major.value
    ensures completedCourses.Some? ==> req.completedCourses == completedCourses.value
    ensures currentQuarter.Some? ==> req.currentQuarter == currentQuarter.value
    ensures major.None? ==> req.major == "CS"
    ensures completedCourses.None? ==> req.completedCourses == []
    ensures currentQuarter.None? ==> req.currentQuarter == "Winter 2025"
  {
    ProfileRequest(
      major.GetOr(RequestDefaultMajor),
      completedCourses.GetOr([]),
      currentQuarter.GetOr(RequestDefaultQuarter))
  }

  /** The dict `set_profile` stores: exactly the three request fields. */
  function StoredProfile(req: ProfileRequest): (p: Profile)
    ensures p.major == Some(req.major)
    ensures p.completedCourses == Some(req.completedCourses)
    ensures p.currentQuarter == Some(req.currentQuarter)
    ensures p.name.None? && p.studentId.None? && p.classStanding.None?
    ensures p.cumulativeGpa.None? && p.totalCredits.None?
    ensures p.currentCourses.None? && p.academicHighlights.None? && p.interests.None?
  {
    Profile(
      name := None, studentId := None,
      major := Some(req.major),
      classStanding := None,
      currentQuarter := Some(req.currentQuarter),
      cumulativeGpa := None, totalCredits := None,
      completedCourses := Some(req.completedCourses),
      currentCourses := None, academicHighlights := None, interests := None)
  }

  /* ---------------------------------------------------------------- */
  /* get_profile / set_profile                                         */
  /* ---------------------------------------------------------------- */

  /** `users.get(user_id, DEFAULT_USER_PROFILE)`. */
  function GetProfile(store: Store, userId: string): (p: Profile)
    ensures userId in store ==> p == store[userId]
    ensures userId !in store ==> p == DefaultProfile
  {
    if userId in store then store[userId] else DefaultProfile
  }

  datatype SetProfileResponse = SetProfileResponse(status: string, profile: Profile)

  datatype Written = Written(store: Store, response: SetProfileResponse)

  /** `set_profile`: overwrite (or create) the entry for `userId` and echo it. */
  function SetProfile(store: Store, userId: string, req: ProfileRequest): (w: Written)
    ensures w.store.Keys == store.Keys + {userId}
    ensures w.store[userId] == StoredProfile(req)
    ensures forall u :: u in store && u != userId ==> w.store[u] == store[u]
    ensures w.response == SetProfileResponse("success", GetProfile(w.store, userId))
  {
    var store' := store[userId := StoredProfile(req)];
    Written(store', SetProfileResponse("success", store'[userId]))
  }

  /** Reading any id after a write: the written id sees exactly the three
      projected fields, every other id sees what it saw before. */
  lemma GetAfterSet(store: Store, userId: string, req: ProfileRequest, other: string)
    ensures GetProfile(SetProfile(store, userId, req).store, userId) == StoredProfile(req)
    ensures other != userId ==>
      GetProfile(SetProfile(store, userId, req).store, other) == GetProfile(store, other)
  {
  }

  /** A second write to the same id replaces the first entirely. */
  lemma SetProfileLastWriteWins(store: Store, userId: string, first: ProfileRequest, second: ProfileRequest)
    ensures SetProfile(SetProfile(store, userId, first).store, userId, second).store
         == SetProfile(store, userId, second).store
  {
  }

  /** Writes to different ids commute. */
  lemma SetProfileCommutes(store: Store, u: string, p: ProfileRequest, v: string, q: ProfileRequest)
    requires u != v
    ensures SetProfile(SetProfile(store, u, p).store, v, q).store
         == SetProfile(SetProfile(store, v, q).store, u, p).store
  {
  }

  /** At process start every id, "default" included, reads as the
      demonstration profile. */
  lemma InitialStoreReadsDefault(userId: string)
    ensures DefaultUserId in InitialStore && InitialStore[DefaultUserId] == DefaultProfile
    ensures GetProfile(InitialStore, userId) == DefaultProfile
  {
  }

  /* ---------------------------------------------------------------- */
  /* Histories of writes                                               */
  /* ---------------------------------------------------------------- */

  datatype Write = Write(userId: string, req: ProfileRequest)

  /** The store after applying `writes` in order to `store`. */
  function Replay(store: Store, writes: seq<Write>): Store
  {
    if |writes| == 0 then store
    else
      var last := writes[|writes| - 1];
      SetProfile(Replay(store, writes[..|writes| - 1]), last.userId, last.req).store
  }

  /** Write `i` is to `userId`, and no later write is. */
  predicate LastWriteAt(writes: seq<Write>, userId: string, i: nat)
    requires i < |writes|
  {
    && writes[i].userId == userId
    && forall j :: i < j < |writes| ==> writes[j].userId != userId
  }

  /** The request of the last write to `userId`, if any. */
  function LastWrite(writes: seq<Write>, userId: string): (r: Option<ProfileRequest>)
    ensures r.None? <==> forall i :: 0 <= i < |writes| ==> writes[i].userId != userId
  {
    if |writes| == 0 then None
    else if writes[|writes| - 1].userId == userId then Some(writes[|writes| - 1].req)
    else LastWrite(writes[..|writes| - 1], userId)
  }

  /** A found request is that of a write to `userId` with no later write to it. */
  lemma {:induction false} LastWriteIsLast(writes: seq<Write>, userId: string)
    ensures LastWrite(writes, userId).Some? ==>
      exists i :: 0 <= i < |writes| && LastWriteAt(writes, userId, i)
                  && LastWrite(writes, userId).value == writes[i].req
  {
    if |writes| > 0 {
      var n := |writes| - 1;
      if writes[n].userId == userId {
        assert LastWriteAt(writes, userId, n);
      } else {
        var prefix := writes[..n];
        LastWriteIsLast(prefix, userId);
        if LastWrite(prefix, userId).Some? {
          var i :| 0 <= i < n && LastWriteAt(prefix, userId, i)
                   && LastWrite(prefix, userId).value == prefix[i].req;
          assert LastWriteAt(writes, userId, i);
        }
      }
    }
  }

  /** After any history of writes from process start, an id reads as the
      projection of its last write, and an id never written reads as the
      demonstration profile. */
  lemma {:induction false} ReplayLookup(writes: seq<Write>, userId: string)
    ensures GetProfile(Replay(InitialStore, writes), userId)
         == match LastWrite(writes, userId)
            case Some(req) => StoredProfile(req)
            case None => DefaultProfile
  {
    if |writes| > 0 {
      ReplayLookup(writes[..|writes| - 1], userId);
    }
  }
}

=== FILE: prompt.dfy ===
/** Prompt assembly for `chat`: the template with `{name}` placeholders, the
    single-pass substitution that renders it, and the derivation of each
    template variable from a possibly sparse profile. */
module Prompt {
  import opened Wrappers
  import opened Strings
  import opened Profiles

  /* ---------------------------------------------------------------- */
  /* Templates                                                         */
  /* ---------------------------------------------------------------- */

  /** The placeholder names `chat`'s template uses. */
  datatype Field =
    | Name | Major | ClassStanding | CurrentQuarter | CumulativeGpa | TotalCredits
    | AcademicHighlights | NumCompleted | CompletedCourses | CurrentCourses | Interests
    | CourseContext | RequirementsContext | Question

  /** How a field is spelled inside the braces of the template text. */
  function FieldName(f: Field): string {
    match f
    case Name => "name"
    case Major => "major"
    case ClassStanding => "class_standing"
    case CurrentQuarter => "current_quarter"
    case CumulativeGpa => "cumulative_gpa"
    case TotalCredits => "total_credits"
    case AcademicHighlights => "academic_highlights"
    case NumCompleted => "num_completed"
    case CompletedCourses => "completed_courses"
    case CurrentCourses => "current_courses"
    case Interests => "interests"
    case CourseContext => "course_context"
    case RequirementsContext => "requirements_context"
    case Question => "question"
  }

  /** A template is literal text interleaved with `{name}` placeholders. */
  datatype Segment = Lit(text: string) | Var(name: Field)

  type Template = seq<Segment>

  type Variables = map<Field, string>

  /** The placeholders a template uses. */
  function Placeholders(t: Template): set<Field> {
    set i | 0 <= i < |t| && t[i].Var? :: t[i].name
  }

  /** The template's source text, placeholders written `{name}`. */
  function TemplateText(t: Template): string {
    if |t| == 0 then ""
    else
      var head := match t[0]
        case Lit(s) => s
        case Var(n) => "{" + FieldName(n) + "}";
      head + TemplateText(t[1..])
  }

  /** Substitute `vars` into `t` in one left-to-right pass; a value is never
      itself scanned for placeholders. Fails with the first placeholder
      that has no value, as Python's formatter raises `KeyError`. */
  function Render(t: Template, vars: Variables): (r: Result<string, Field>)
    ensures r.Success? <==> Placeholders(t) <= vars.Keys
    ensures r.Failure? ==> r.error in Placeholders(t) && r.error !in vars
  {
    if |t| == 0 then Success("")
    else
      assert Placeholders(t) == Placeholders(t[..1]) + Placeholders(t[1..]) by {
        forall n | n in Placeholders(t)
          ensures n in Placeholders(t[..1]) + Placeholders(t[1..])
        {
          var i :| 0 <= i < |t| && t[i].Var? && t[i].name == n;
          if i > 0 { assert t[1..][i - 1] == t[i]; }
        }
      }
      var rest := Render(t[1..], vars);
      match t[0]
      case Lit(s) =>
        if rest.Success? then Success(s + rest.value) else rest
      case Var(n) =>
        if n !in vars then Failure(n)
        else if rest.Success? then Success(vars[n] + rest.value) else rest
  }

  lemma RenderCons(head: Segment, t: Template, vars: Variables)
    requires Render([head] + t, vars).Success?
    ensures Render(t, vars).Success?
    ensures head.Lit? ==> Render([head] + t, vars).value == head.text + Render(t, vars).value
    ensures head.Var? ==> (head.name in vars &&
      Render([head] + t, vars).value == vars[head.name] + Render(t, vars).value)
  {
  }

  /** Every value substituted for a placeholder of the template occurs in
      the rendered text. */
  lemma {:induction false} RenderContainsValue(t: Template, vars: Variables, i: nat)
    requires Render(t, vars).Success?
    requires i < |t| && t[i].Var?
    ensures t[i].name in vars && IsInfix(vars[t[i].name], Render(t, vars).value)
  {
    assert t == [t[0]] + t[1..];
    RenderCons(t[0], t[1..], vars);
    var rest := Render(t[1..], vars).value;
    if i == 0 {
      InfixOfSelf(vars[t[0].name]);
      InfixOfConcat(vars[t[0].name], vars[t[0].name], rest);
    } else {
      assert t[1..][i - 1] == t[i];
      RenderContainsValue(t[1..], vars, i - 1);
      var prefix := if t[0].Lit? then t[0].text else vars[t[0].name];
      InfixOfConcat(vars[t[i].name], prefix, rest);
    }
  }

  /** Rendering with each placeholder mapped to its own `{name}` spelling
      gives back the template's source text. */
  lemma {:induction false} RenderPlaceholdersIsText(t: Template, vars: Variables)
    requires forall n :: n in Placeholders(t) ==> n in vars && vars[n] == "{" + FieldName(n) + "}"
    ensures Render(t, vars) == Success(TemplateText(t))
  {
    if |t| > 0 {
      assert Placeholders(t[1..]) <= Placeholders(t) by {
        forall n | n in Placeholders(t[1..]) ensures n in Placeholders(t) {
          var i :| 0 <= i < |t[1..]| && t[1..][i].Var? && t[1..][i].name == n;
          assert t[i + 1] == t[1..][i];
        }
      }
      RenderPlaceholdersIsText(t[1..], vars);
      if t[0].Var? {
        assert t[0].name in Placeholders(t);
      }
    }
  }

  /* ---------------------------------------------------------------- */
  /* The chat template                                                 */
  /* ---------------------------------------------------------------- */

  const ChatTemplate: Template := [
    Lit("\nYou are a helpful academic advisor at the University of Washington helping "),
    Var(Name),
    Lit(".\n\nStudent Profile:\n- Name: "),
    Var(Name),
    Lit("\n- Major: "),
    Var(Major),
    Lit("\n- Class Standing: "),
    Var(ClassStanding),
    Lit("\n- Current Quarter: "),
    Var(CurrentQuarter),
    Lit("\n- Cumulative GPA: "),
    Var(CumulativeGpa),
    Lit("\n- Total Credits Earned: "),
    Var(TotalCredits),
    Lit("\n\nAcademic Highlights:\n"),
    Var(AcademicHighlights),
    Lit("\n\nCompleted Courses ("),
    Var(NumCompleted),
    Lit(" courses):\n"),
    Var(CompletedCourses),
    Lit("\n\nCurrently Enrolled:\n"),
    Var(CurrentCourses),
    Lit("\n\nInterests & Background:\n"),
    Var(Interests),
    Lit("\n\nRelevant Courses from Database:\n"),
    Var(CourseContext),
    Lit("\n\nRelevant Degree Requirements:\n"),
    Var(RequirementsContext),
    Lit("\n\nStudent Question: "),
    Var(Question),
    Lit("\n\nInstructions:\n"
      + "- Address the student by name ("),
    Var(Name),
    Lit(")\n"
      + "- Be conversational and friendly, like a helpful advisor who knows the student well\n"
      + "- Consider their completed courses when making recommendations (they've already taken these!)\n"
      + "- Consider their double major in both Statistics/Data Science AND Computer Science\n"
      + "- Reference their academic achievements (Dean's List, strong GPA in probability)\n"
      + "- Include course codes, schedules, and prerequisites when relevant\n"
      + "- Make personalized recommendations based on their interests and background\n"
      + "- Be encouraging and supportive\n"
      + "- If recommending courses, check prerequisites against their completed courses\n"
      + "- Keep answers concise but complete\n"
      + "\nAnswer:\n    ")
  ]

  /** The position of a field's first placeholder in `ChatTemplate`. */
  function ChatPosition(f: Field): (i: nat)
    ensures i < |ChatTemplate| && ChatTemplate[i] == Var(f)
  {
    match f
    case Name => 1
    case Major => 5
    case ClassStanding => 7
    case CurrentQuarter => 9
    case CumulativeGpa => 11
    case TotalCredits => 13
    case AcademicHighlights => 15
    case NumCompleted => 17
    case CompletedCourses => 19
    case CurrentCourses => 21
    case Interests => 23
    case CourseContext => 25
    case RequirementsContext => 27
    case Question => 29
  }

  /** With every field bound, the chat template renders, and the rendered
      prompt carries the value of every field. */
  lemma ChatPromptCarries(vars: Variables)
    requires forall g: Field :: g in vars
    ensures Render(ChatTemplate, vars).Success?
    ensures forall f: Field :: IsInfix(vars[f], Render(ChatTemplate, vars).value)
  {
    forall f: Field ensures IsInfix(vars[f], Render(ChatTemplate, vars).value) {
      RenderContainsValue(ChatTemplate, vars, ChatPosition(f));
    }
  }

  /** The chat prompt for a complete set of variables: the value of every
      field occurs in it. */
  function RenderChat(vars: Variables): (prompt: string)
    requires forall g: Field :: g in vars
    ensures forall f: Field :: IsInfix(vars[f], prompt)
  {
    ChatPromptCarries(vars);
    Render(ChatTemplate, vars).value
  }

  /* ---------------------------------------------------------------- */
  /* Template variables                                                */
  /* ---------------------------------------------------------------- */

  const FallbackName: string := "Student"
  const FallbackMajor: string := "CS"
  const FallbackStanding: string := "Junior"
  const FallbackQuarter: string := "Autumn 2025"
  const NotAvailable: string := "N/A"
  const FallbackInterests: string := "General interest in computer science"
  const NoCompletedCourses: string := "None listed"
  const NoCurrentCourses: string := "None"
  const CourseSeparator: string := ", "

  /** `- h` for each highlight, in order. */
  function Bullets(highlights: seq<string>): (lines: seq<string>)
    ensures |lines| == |highlights|
    ensures forall i :: 0 <= i < |lines| ==> lines[i] == "- " + highlights[i]
  {
    seq(|highlights|, i requires 0 <= i < |highlights| => "- " + highlights[i])
  }

  /** The `academic_highlights` variable: one bullet line per highlight,
      the lines separated by "\n"; the layout clause fixes the text
      (`JoinLayoutUnique`). */
  function HighlightsText(highlights: Option<seq<string>>): (text: string)
    ensures |highlights.GetOr([])| == 0 ==> text == ""
    ensures |highlights.GetOr([])| > 0 ==> JoinLayout("\n", Bullets(highlights.GetOr([])), text)
  {
    JoinHasLayout("\n", Bullets(highlights.GetOr([])));
    Join("\n", Bullets(highlights.GetOr([])))
  }

  /** Reads bullet lines back into highlights. */
  function ParseHighlights(text: string): seq<string> {
    if text == "" then []
    else
      var lines := Split(text, '\n');
      seq(|lines|, i requires 0 <= i < |lines| =>
        if |lines[i]| >= 2 && lines[i][..2] == "- " then lines[i][2..] else lines[i])
  }

  /** The highlights text is empty exactly when there are no highlights
      (absent or an empty list): every bullet line is at least "- ". */
  lemma HighlightsTextEmpty(highlights: Option<seq<string>>)
    ensures HighlightsText(highlights) == "" <==> |highlights.GetOr([])| == 0
  {
  }

  /** The highlights can be read back from their bullet lines, provided no
      highlight contains a line break. */
  lemma HighlightsRoundTrip(highlights: seq<string>)
    requires forall i :: 0 <= i < |highlights| ==> '\n' !in highlights[i]
    ensures ParseHighlights(HighlightsText(Some(highlights))) == highlights
  {
    var lines := Bullets(highlights);
    HighlightsTextEmpty(Some(highlights));
    if |highlights| > 0 {
      forall i | 0 <= i < |lines| ensures '\n' !in lines[i] {
        assert lines[i] == "- " + highlights[i];
      }
      SplitJoin(lines, '\n');
      assert Join("\n", lines) == Join(['\n'], lines);
    }
  }

  /** A course-list variable: the courses joined by ", ", or `none` when
      the list is absent or empty. The layout clause fixes the text: the
      courses in order with ", " between neighbours (`JoinLayoutUnique`). */
  function CourseListText(courses: Option<seq<string>>, none: string): (text: string)
    ensures courses.None? || |courses.value| == 0 ==> text == none
    ensures courses.Some? && |courses.value| > 0 ==>
      forall i :: 0 <= i < |courses.value| ==> IsInfix(courses.value[i], text)
    ensures courses.Some? && |courses.value| > 0 ==> JoinLayout(", ", courses.value, text)
  {
    if courses.Some? && |courses.value| > 0 then
      JoinContainsItems(CourseSeparator, courses.value);
      JoinHasLayout(CourseSeparator, courses.value);
      Join(CourseSeparator, courses.value)
    else none
  }

  /** A single course named "None listed" renders like no courses at all;
      only the `num_completed` count tells the two profiles apart. */
  lemma CourseListAmbiguous()
    ensures CourseListText(Some(["None listed"]), NoCompletedCourses)
         == CourseListText(Some([]), NoCompletedCourses)
    ensures CompletedCountText(Some(["None listed"])) != CompletedCountText(Some([]))
  {
  }

  /** The `num_completed` variable: the decimal length of the completed-course list. */
  function CompletedCountText(courses: Option<seq<string>>): (text: string)
    ensures IsCanonicalDecimal(text)
    ensures ParseNat(text) == |courses.GetOr([])|
  {
    ParseNatToString(|courses.GetOr([])|);
    NatToString(|courses.GetOr([])|)
  }

  /** The `total_credits` variable. */
  function CreditsText(credits: Option<nat>): (text: string)
    ensures credits.None? ==> text == NotAvailable
    ensures credits.Some? ==> IsCanonicalDecimal(text) && ParseNat(text) == credits.value
  {
    match credits
    case None => NotAvailable
    case Some(n) => ParseNatToString(n); NatToString(n)
  }

  /** A variable map with a value for each of the fourteen fields binds every field. */
  lemma EveryFieldBound(vars: Variables)
    requires Name in vars && Major in vars && ClassStanding in vars && CurrentQuarter in vars
    requires CumulativeGpa in vars && TotalCredits in vars && AcademicHighlights in vars
    requires NumCompleted in vars && CompletedCourses in vars && CurrentCourses in vars
    requires Interests in vars && CourseContext in vars && RequirementsContext in vars
    requires Question in vars
    ensures forall f: Field :: f in vars
  {
    forall f: Field ensures f in vars {
      match f
      case Name => case Major => case ClassStanding => case CurrentQuarter =>
      case CumulativeGpa => case TotalCredits => case AcademicHighlights =>
      case NumCompleted => case CompletedCourses => case CurrentCourses =>
      case Interests => case CourseContext => case RequirementsContext =>
      case Question =>
    }
  }

  /** The variables `chat` hands to the template. */
  function PromptVariables(user: Profile, courseContext: string, requirementsContext: string,
                           question: string): (vars: Variables)
    ensures forall f: Field :: f in vars
  {
    var vars := map[
        Name := user.name.GetOr(FallbackName),
        Major := user.major.GetOr(FallbackMajor),
        ClassStanding := user.classStanding.GetOr(FallbackStanding),
        CurrentQuarter := user.currentQuarter.GetOr(FallbackQuarter),
        CumulativeGpa := user.cumulativeGpa.GetOr(NotAvailable),
        TotalCredits := CreditsText(user.totalCredits),
        AcademicHighlights := HighlightsText(user.academicHighlights),
        NumCompleted := CompletedCountText(user.completedCourses),
        CompletedCourses := CourseListText(user.completedCourses, NoCompletedCourses),
        CurrentCourses := CourseListText(user.currentCourses, NoCurrentCourses),
        Interests := user.interests.GetOr(FallbackInterests),
        CourseContext := courseContext,
        RequirementsContext := requirementsContext,
        Question := question
    ];
    EveryFieldBound(vars);
    vars
  }

  /** The rendered chat prompt carries every completed course of `user`. */
  lemma ChatPromptListsCompleted(user: Profile, courseContext: string, requirementsContext: string,
                                 question: string)
    ensures var prompt := RenderChat(PromptVariables(user, courseContext, requirementsContext, question));
      user.completedCourses.Some? ==>
        forall i :: 0 <= i < |user.completedCourses.value| ==>
          IsInfix(user.completedCourses.value[i], prompt)
  {
    if user.completedCourses.Some? {
      var vars := PromptVariables(user, courseContext, requirementsContext, question);
      var prompt := RenderChat(vars);
      assert vars[CompletedCourses] == CourseListText(user.completedCourses, NoCompletedCourses);
      forall i | 0 <= i < |user.completedCourses.value|
        ensures IsInfix(user.completedCourses.value[i], prompt)
      {
        InfixTransitive(user.completedCourses.value[i], vars[CompletedCourses], prompt);
      }
    }
  }

  /** The prompt `chat` renders for `user`: it carries the value of every
      template variable, in particular the question, both retrieval
      contexts, the student's name, major and quarter (or their fallbacks)
      and every completed course. */
  function ChatPromptFor(user: Profile, courseContext: string, requirementsContext: string,
                         question: string): (prompt: string)
    ensures IsInfix(question, prompt)
    ensures IsInfix(courseContext, prompt)
    ensures IsInfix(requirementsContext, prompt)
    ensures IsInfix(user.name.GetOr("Student"), prompt)
    ensures IsInfix(user.major.GetOr("CS"), prompt)
    ensures IsInfix(user.currentQuarter.GetOr("Autumn 2025"), prompt)
    ensures user.completedCourses.Some? ==>
      forall i :: 0 <= i < |user.completedCourses.value| ==>
        IsInfix(user.completedCourses.value[i], prompt)
    ensures forall f: Field ::
      IsInfix(PromptVariables(user, courseContext, requirementsContext, question)[f], prompt)
  {
    var vars := PromptVariables(user, courseContext, requirementsContext, question);
    assert vars[Question] == question && vars[CourseContext] == courseContext;
    assert vars[RequirementsContext] == requirementsContext;
    assert vars[Name] == user.name.GetOr("Student");
    assert vars[Major] == user.major.GetOr("CS");
    assert vars[CurrentQuarter] == user.currentQuarter.GetOr("Autumn 2025");
    ChatPromptListsCompleted(user, courseContext, requirementsContext, question);
    RenderChat(vars)
  }

  /** Every placeholder of the chat template gets a value, whatever the
      profile, so the template always renders. */
  lemma ChatTemplateRenders(user: Profile, courseContext: string, requirementsContext: string,
                            question: string)
    ensures Render(ChatTemplate, PromptVariables(user, courseContext, requirementsContext, question)).Success?
  {
  }

  /** The profile written by `set_profile` has only three keys, so every
      other variable takes its fallback. */
  lemma StoredProfileVariables(req: ProfileRequest, courseContext: string,
                               requirementsContext: string, question: string)
    ensures var vars := PromptVariables(StoredProfile(req), courseContext, requirementsContext, question);
      && vars[Name] == "Student"
      && vars[Major] == req.major
      && vars[ClassStanding] == "Junior"
      && vars[CurrentQuarter] == req.currentQuarter
      && vars[CumulativeGpa] == "N/A"
      && vars[TotalCredits] == "N/A"
      && vars[AcademicHighlights] == ""
      && ParseNat(vars[NumCompleted]) == |req.completedCourses|
      && (|req.completedCourses| == 0 ==> vars[CompletedCourses] == "None listed")
      && vars[CurrentCourses] == "None"
      && vars[Interests] == "General interest in computer science"
  {
    var p := StoredProfile(req);
    assert HighlightsText(p.academicHighlights) == "";
    assert CreditsText(p.totalCredits) == "N/A";
    assert CourseListText(p.currentCourses, NoCurrentCourses) == "None";
  }
}

=== FILE: retrieval.dfy ===
/** What the backend does with the answers of the vector store: it turns a
    query answer into the text context of a chat prompt, and into the hit
    lists of the `search-courses` and `requirements` endpoints.

    The vector store itself is an oracle: a total function from a query
    text and a requested result count to an answer with three parallel
    outer lists (one inner list per query text). */
module Retrieval {
  import opened Wrappers
  import opened Strings

  /** The metadata dict of a stored document, passed through untouched. */
  type Metadata = map<string, string>

  datatype QueryResponse = QueryResponse(
    ids: seq<seq<string>>,
    documents: seq<seq<string>>,
    metadatas: seq<seq<Metadata>>)

  /** A collection's nearest-neighbour query: query text and `n_results`. */
  type Oracle = (string, int) -> QueryResponse

  /* ---------------------------------------------------------------- */
  /* Prompt context                                                    */
  /* ---------------------------------------------------------------- */

  const ContextSeparator: string := "\n\n"
  const NoCourses: string := "No relevant courses found."
  const NoRequirements: string := "No relevant requirements found."

  /** The context line of `chat`: the first result list joined by blank
      lines when the outer `documents` list is non-empty, `placeholder`
      otherwise. The test is on the OUTER list, so an answer whose first
      list is empty yields the empty string, not the placeholder. The
      layout clause fixes the text completely: the documents in order,
      "\n\n" between neighbours and nothing else (`JoinLayoutUnique`). */
  function FormatContext(documents: seq<seq<string>>, placeholder: string): (context: string)
    ensures |documents| == 0 ==> context == placeholder
    ensures |documents| > 0 && |documents[0]| == 0 ==> context == ""
    ensures |documents| > 0 ==>
      forall i :: 0 <= i < |documents[0]| ==> IsInfix(documents[0][i], context)
    ensures |documents| > 0 && |documents[0]| > 0 ==>
      |context| == TotalLength(documents[0]) + 2 * (|documents[0]| - 1)
    ensures |documents| > 0 && |documents[0]| > 0 ==>
      JoinLayout("\n\n", documents[0], context)
  {
    if |documents| > 0 then
      JoinContainsItems(ContextSeparator, documents[0]);
      JoinLength(ContextSeparator, documents[0]);
      JoinHasLayout(ContextSeparator, documents[0]);
      Join(ContextSeparator, documents[0])
    else placeholder
  }

  /** Any text laid out as the documents joined by blank lines is the
      context: the layout clause of `FormatContext` leaves no freedom. */
  lemma ContextDeterminedByLayout(documents: seq<seq<string>>, placeholder: string, s: string)
    requires |documents| > 0 && JoinLayout("\n\n", documents[0], s)
    ensures s == FormatContext(documents, placeholder)
  {
    JoinLayoutUnique(ContextSeparator, documents[0], s);
  }

  /** Only the first result list contributes to the context. */
  lemma ContextIgnoresLaterLists(d1: seq<seq<string>>, d2: seq<seq<string>>, placeholder: string)
    requires |d1| > 0 && |d2| > 0 && d1[0] == d2[0]
    ensures FormatContext(d1, placeholder) == FormatContext(d2, placeholder)
  {
  }

  /* ---------------------------------------------------------------- */
  /* Hit lists                                                         */
  /* ---------------------------------------------------------------- */

  datatype Hit = Hit(id: string, text: string, metadata: Metadata)

  /** Python's `IndexError` from subscripting a list that is too short. */
  datatype Error = IndexError

  const PreviewLength: nat := 200
  const Ellipsis: string := "..."

  /** `doc[:200] + "..."`. */
  function Preview(doc: string): (text: string)
    ensures |text| <= PreviewLength + |Ellipsis|
    ensures |text| >= |Ellipsis| && text[|text| - |Ellipsis|..] == Ellipsis
    ensures |doc| <= PreviewLength ==> text[..|text| - |Ellipsis|] == doc
    ensures |doc| > PreviewLength ==>
      |text| == PreviewLength + |Ellipsis| && text[..PreviewLength] == doc[..PreviewLength]
  {
    (if |doc| <= PreviewLength then doc else doc[..PreviewLength]) + Ellipsis
  }

  /** What the list comprehension needs of the answer to index it without
      raising: an outer `ids` list, and — unless the first id list is
      empty, in which case no element is ever read — first document and
      metadata lists at least as long as the first id list. */
  predicate Indexable(res: QueryResponse) {
    && |res.ids| > 0
    && (|res.ids[0]| == 0 ||
         (&& |res.documents| > 0 && |res.documents[0]| >= |res.ids[0]|
          && |res.metadatas| > 0 && |res.metadatas[0]| >= |res.ids[0]|))
  }

  /** One hit per id of the first id list, in the oracle's order, with each
      document text passed through `Preview` (`preview`) or unchanged. */
  function Hits(res: QueryResponse, preview: bool): (r: Result<seq<Hit>, Error>)
    ensures r.Success? <==> Indexable(res)
    ensures r.Success? ==> |r.value| == |res.ids[0]|
    ensures r.Success? ==> forall i :: 0 <= i < |r.value| ==>
      && r.value[i].id == res.ids[0][i]
      && r.value[i].metadata == res.metadatas[0][i]
      && r.value[i].text == (if preview then Preview(res.documents[0][i]) else res.documents[0][i])
  {
    if !Indexable(res) then Failure(IndexError)
    else
      var n := |res.ids[0]|;
      Success(seq(n, i requires 0 <= i < n =>
        Hit(res.ids[0][i],
            if preview then Preview(res.documents[0][i]) else res.documents[0][i],
            res.metadatas[0][i])))
  }

  /** A search hit's text is the document's first 200 characters followed
      by "...": a prefix of the document that is the whole document when it
      is short enough. */
  lemma SearchHitText(res: QueryResponse, i: nat)
    requires Hits(res, true).Success? && i < |Hits(res, true).value|
    ensures var text := Hits(res, true).value[i].text;
            var doc := res.documents[0][i];
            && |text| <= 203 && text[|text| - 3..] == "..."
            && text[..|text| - 3] <= doc
            && (|doc| <= 200 <==> text[..|text| - 3] == doc)
            && (|doc| > 200 ==> |text| == 203 && text[..200] == doc[..200])
  {
  }
}

=== FILE: strings.dfy ===
/** The Python string operations the backend uses, `sep.join(xs)` and
    `str(n)` for a non-negative integer, together with what the model
    needs to state facts about them: a substring relation, and `s.split(c)`
    for a one-character separator, which reads joined lines back.
    Strings are sequences of Unicode scalar values; a Python `str` may also
    hold lone surrogate code points, which these strings cannot. */
module Strings {

  /* ---------------------------------------------------------------- */
  /* Substrings                                                        */
  /* ---------------------------------------------------------------- */

  /** `a` occurs in `b` starting at offset `k`. */
  ghost predicate OccursAt(a: string, b: string, k: nat) {
    k + |a| <= |b| && b[k..k + |a|] == a
  }

  /** `a` is a contiguous substring of `b` (Python's `a in b`). */
  ghost predicate IsInfix(a: string, b: string) {
    exists k: nat :: OccursAt(a, b, k)
  }

  lemma InfixOfSelf(a: string)
    ensures IsInfix(a, a)
  {
    assert OccursAt(a, a, 0);
  }

  /** A substring of either operand is a substring of the concatenation. */
  lemma InfixOfConcat(a: string, x: string, y: string)
    ensures IsInfix(a, x) ==> IsInfix(a, x + y)
    ensures IsInfix(a, y) ==> IsInfix(a, x + y)
  {
    if IsInfix(a, x) {
      var k: nat :| OccursAt(a, x, k);
      assert (x + y)[k..k + |a|] == x[k..k + |a|];
      assert OccursAt(a, x + y, k);
    }
    if IsInfix(a, y) {
      var k: nat :| OccursAt(a, y, k);
      assert (x + y)[|x| + k..|x| + k + |a|] == y[k..k + |a|];
      assert OccursAt(a, x + y, |x| + k);
    }
  }

  lemma InfixTransitive(a: string, b: string, c: string)
    requires IsInfix(a, b) && IsInfix(b, c)
    ensures IsInfix(a, c)
  {
    var i: nat :| OccursAt(a, b, i);
    var j: nat :| OccursAt(b, c, j);
    forall m | 0 <= m < |a|
      ensures c[j + i + m] == a[m]
    {
      assert c[j + i + m] == c[j..j + |b|][i + m] == b[i + m];
      assert b[i + m] == b[i..i + |a|][m];
    }
    assert c[j + i..j + i + |a|] == a;
    assert OccursAt(a, c, j + i);
  }

  /* ---------------------------------------------------------------- */
  /* sep.join(xs)                                                      */
  /* ---------------------------------------------------------------- */

  /** Sum of the lengths of the strings in `xs`. */
  function TotalLength(xs: seq<string>): nat {
    if |xs| == 0 then 0 else |xs[0]| + TotalLength(xs[1..])
  }

  /** Python's `sep.join(xs)`: the items in order, with `sep` between
      neighbours and nowhere else. */
  function Join(sep: string, xs: seq<string>): string {
    if |xs| == 0 then ""
    else if |xs| == 1 then xs[0]
    else xs[0] + sep + Join(sep, xs[1..])
  }

  /** The join is as long as its items plus one separator between each
      neighbouring pair, and starts with the first item. */
  lemma {:induction false} JoinLength(sep: string, xs: seq<string>)
    ensures |xs| > 0 ==> |Join(sep, xs)| == TotalLength(xs) + (|xs| - 1) * |sep|
    ensures |xs| > 0 ==> Join(sep, xs)[..|xs[0]|] == xs[0]
  {
    if |xs| > 1 {
      JoinLength(sep, xs[1..]);
    }
  }

  /** Every item of `xs` occurs in `sep.join(xs)`. */
  lemma {:induction false} JoinContainsItems(sep: string, xs: seq<string>)
    ensures forall i :: 0 <= i < |xs| ==> IsInfix(xs[i], Join(sep, xs))
  {
    if |xs| == 1 {
      InfixOfSelf(xs[0]);
    } else if |xs| > 1 {
      var tail := xs[1..];
      JoinContainsItems(sep, tail);
      assert Join(sep, xs) == xs[0] + (sep + Join(sep, tail));
      forall i | 0 <= i < |xs|
        ensures IsInfix(xs[i], Join(sep, xs))
      {
        if i == 0 {
          InfixOfSelf(xs[0]);
          InfixOfConcat(xs[0], xs[0], sep + Join(sep, tail));
        } else {
          assert xs[i] == tail[i - 1];
          InfixOfConcat(xs[i], sep, Join(sep, tail));
          InfixOfConcat(xs[i], xs[0], sep + Join(sep, tail));
        }
      }
    }
  }

  /** Where item `i` of `sep.join(xs)` starts: after the first `i` items
      and one separator behind each of them. */
  function ItemOffset(sep: string, xs: seq<string>, i: nat): nat
    requires i <= |xs|
  {
    TotalLength(xs[..i]) + i * |sep|
  }

  /** `s` is laid out as `sep.join(xs)` is: it has the join's length, item
      `i` occurs at its offset, and a separator directly follows every item
      but the last. */
  ghost predicate JoinLayout(sep: string, xs: seq<string>, s: string) {
    && |xs| > 0
    && |s| == TotalLength(xs) + (|xs| - 1) * |sep|
    && (forall i :: 0 <= i < |xs| ==> OccursAt(xs[i], s, ItemOffset(sep, xs, i)))
    && (forall i :: 0 <= i < |xs| - 1 ==> OccursAt(sep, s, ItemOffset(sep, xs, i) + |xs[i]|))
  }

  /** Offsets into the tail of a list shift by the head item and one separator. */
  lemma ItemOffsetTail(sep: string, xs: seq<string>, j: nat)
    requires j < |xs|
    ensures ItemOffset(sep, xs, j + 1) == |xs[0]| + |sep| + ItemOffset(sep, xs[1..], j)
  {
    assert xs[..j + 1][1..] == xs[1..][..j];
    assert (j + 1) * |sep| == j * |sep| + |sep|;
  }

  /** An occurrence after a cut point is an occurrence in the rest. */
  lemma OccursAtShift(a: string, s: string, d: nat, k: nat)
    requires d <= |s|
    ensures OccursAt(a, s, d + k) <==> OccursAt(a, s[d..], k)
  {
  }

  /** Item `i` of `sep.join(xs)` starts at its offset. */
  lemma {:induction false} JoinItemsAt(sep: string, xs: seq<string>)
    ensures forall i :: 0 <= i < |xs| ==> OccursAt(xs[i], Join(sep, xs), ItemOffset(sep, xs, i))
  {
    if |xs| > 0 {
      var s := Join(sep, xs);
      assert ItemOffset(sep, xs, 0) == 0 by { assert xs[..0] == []; }
      JoinLength(sep, xs);
      assert OccursAt(xs[0], s, 0);
      if |xs| > 1 {
        var tail := xs[1..];
        var d := |xs[0]| + |sep|;
        JoinItemsAt(sep, tail);
        assert s[d..] == Join(sep, tail) by { assert s == xs[0] + sep + Join(sep, tail); }
        forall i | 1 <= i < |xs| ensures OccursAt(xs[i], s, ItemOffset(sep, xs, i)) {
          ItemOffsetTail(sep, xs, i - 1);
          assert tail[i - 1] == xs[i];
          OccursAtShift(xs[i], s, d, ItemOffset(sep, tail, i - 1));
        }
      }
    }
  }

  /** A separator directly follows every item of `sep.join(xs)` but the last. */
  lemma {:induction false} JoinSeparatorsAt(sep: string, xs: seq<string>)
    ensures forall i :: 0 <= i < |xs| - 1 ==>
      OccursAt(sep, Join(sep, xs), ItemOffset(sep, xs, i) + |xs[i]|)
  {
    if |xs| > 1 {
      var s := Join(sep, xs);
      var tail := xs[1..];
      var d := |xs[0]| + |sep|;
      assert ItemOffset(sep, xs, 0) == 0 by { assert xs[..0] == []; }
      assert s == xs[0] + sep + Join(sep, tail);
      assert OccursAt(sep, s, |xs[0]|);
      JoinSeparatorsAt(sep, tail);
      assert s[d..] == Join(sep, tail);
      forall i | 1 <= i < |xs| - 1 ensures OccursAt(sep, s, ItemOffset(sep, xs, i) + |xs[i]|) {
        ItemOffsetTail(sep, xs, i - 1);
        assert tail[i - 1] == xs[i];
        OccursAtShift(sep, s, d, ItemOffset(sep, tail, i - 1) + |tail[i - 1]|);
      }
    }
  }

  /** `sep.join(xs)` has the join layout. */
  lemma JoinHasLayout(sep: string, xs: seq<string>)
    ensures |xs| > 0 ==> JoinLayout(sep, xs, Join(sep, xs))
  {
    JoinLength(sep, xs);
    JoinItemsAt(sep, xs);
    JoinSeparatorsAt(sep, xs);
  }

  /** The items of the tail occur in the rest of the string, shifted by
      the head item and one separator. */
  lemma JoinLayoutTailItems(sep: string, xs: seq<string>, s: string)
    requires |xs| > 1 && |xs[0]| + |sep| <= |s|
    requires forall i :: 0 <= i < |xs| ==> OccursAt(xs[i], s, ItemOffset(sep, xs, i))
    ensures forall j :: 0 <= j < |xs| - 1 ==>
      OccursAt(xs[1..][j], s[|xs[0]| + |sep|..], ItemOffset(sep, xs[1..], j))
  {
    var tail := xs[1..];
    var d := |xs[0]| + |sep|;
    forall j | 0 <= j < |tail| ensures OccursAt(tail[j], s[d..], ItemOffset(sep, tail, j)) {
      ItemOffsetTail(sep, xs, j);
      assert xs[j + 1] == tail[j];
      OccursAtShift(tail[j], s, d, ItemOffset(sep, tail, j));
    }
  }

  /** The separators after the tail's items occur in the rest of the string. */
  lemma JoinLayoutTailSeparators(sep: string, xs: seq<string>, s: string)
    requires |xs| > 1 && |xs[0]| + |sep| <= |s|
    requires forall i :: 0 <= i < |xs| - 1 ==> OccursAt(sep, s, ItemOffset(sep, xs, i) + |xs[i]|)
    ensures forall j :: 0 <= j < |xs| - 2 ==>
      OccursAt(sep, s[|xs[0]| + |sep|..], ItemOffset(sep, xs[1..], j) + |xs[1..][j]|)
  {
    var tail := xs[1..];
    var d := |xs[0]| + |sep|;
    forall j | 0 <= j < |tail| - 1
      ensures OccursAt(sep, s[d..], ItemOffset(sep, tail, j) + |tail[j]|)
    {
      ItemOffsetTail(sep, xs, j);
      assert xs[j + 1] == tail[j];
      OccursAtShift(sep, s, d, ItemOffset(sep, tail, j) + |tail[j]|);
    }
  }

  /** Cutting the first item and separator off a string with the join
      layout leaves a string with the layout of the tail. */
  lemma JoinLayoutTail(sep: string, xs: seq<string>, s: string)
    requires JoinLayout(sep, xs, s) && |xs| > 1
    ensures JoinLayout(sep, xs[1..], s[|xs[0]| + |sep|..])
  {
    var n := |xs| - 1;
    assert TotalLength(xs) == |xs[0]| + TotalLength(xs[1..]);
    assert n * |sep| == (n - 1) * |sep| + |sep|;
    JoinLayoutTailItems(sep, xs, s);
    JoinLayoutTailSeparators(sep, xs, s);
  }

  /** The join layout determines the string: whatever has it is `sep.join(xs)`. */
  lemma {:induction false} JoinLayoutUnique(sep: string, xs: seq<string>, s: string)
    requires JoinLayout(sep, xs, s)
    ensures s == Join(sep, xs)
  {
    assert ItemOffset(sep, xs, 0) == 0 by { assert xs[..0] == []; }
    assert OccursAt(xs[0], s, 0);
    if |xs| == 1 {
      assert TotalLength(xs) == |xs[0]| + TotalLength(xs[1..]);
      assert s == s[0..|xs[0]|];
    } else {
      var d := |xs[0]| + |sep|;
      assert OccursAt(sep, s, |xs[0]|);
      assert s[..|xs[0]|] == xs[0] && s[|xs[0]|..d] == sep;
      JoinLayoutTail(sep, xs, s);
      JoinLayoutUnique(sep, xs[1..], s[d..]);
      assert s == s[..|xs[0]|] + s[|xs[0]|..d] + s[d..];
      assert Join(sep, xs) == xs[0] + sep + Join(sep, xs[1..]);
    }
  }

  /* ---------------------------------------------------------------- */
  /* s.split(c) for a single-character separator                       */
  /* ---------------------------------------------------------------- */

  /** Python's `s.split(c)` where `c` is one character: the maximal
      pieces between occurrences of `c`; always at least one piece, and
      no piece contains `c`. */
  function Split(s: string, c: char): (r: seq<string>)
    ensures |r| >= 1
    ensures forall i :: 0 <= i < |r| ==> c !in r[i]
    decreases |s|
  {
    if |s| == 0 then [""]
    else
      var rest := Split(s[1..], c);
      if s[0] == c then [""] + rest
      else [[s[0]] + rest[0]] + rest[1..]
  }

  /** Splitting a piece free of `c` glued onto `t` extends `t`'s first piece. */
  lemma {:induction false} SplitPrefix(x: string, t: string, c: char)
    requires c !in x
    ensures Split(x + t, c) == [x + Split(t, c)[0]] + Split(t, c)[1..]
    decreases |x|
  {
    if |x| == 0 {
      var r := Split(t, c);
      assert x + t == t && x + r[0] == r[0];
      assert r == [r[0]] + r[1..];
    } else {
      var x' := x[1..];
      assert (x + t)[1..] == x' + t;
      SplitPrefix(x', t, c);
      assert [x[0]] + (x' + Split(t, c)[0]) == x + Split(t, c)[0];
    }
  }

  /** Splitting a join restores the items, when none contains the separator. */
  lemma {:induction false} SplitJoin(xs: seq<string>, c: char)
    requires |xs| >= 1
    requires forall i :: 0 <= i < |xs| ==> c !in xs[i]
    ensures Split(Join([c], xs), c) == xs
    decreases |xs|
  {
    if |xs| == 1 {
      SplitPrefix(xs[0], "", c);
      assert xs[0] + "" == xs[0];
    } else {
      var tail := xs[1..];
      SplitJoin(tail, c);
      var j := Join([c], tail);
      assert Join([c], xs) == xs[0] + ([c] + j);
      SplitPrefix(xs[0], [c] + j, c);
      assert ([c] + j)[1..] == j;
      assert Split([c] + j, c) == [""] + tail;
      assert xs[0] + "" == xs[0];
      assert xs == [xs[0]] + tail;
    }
  }

  /* ---------------------------------------------------------------- */
  /* str(n) for a non-negative integer                                 */
  /* ---------------------------------------------------------------- */

  predicate IsDigit(ch: char) {
    '0' <= ch <= '9'
  }

  predicate AllDigits(s: string) {
    forall i :: 0 <= i < |s| ==> IsDigit(s[i])
  }

  /** The form `str(n)` produces: one or more digits, no leading zero
      except for "0" itself. */
  predicate IsCanonicalDecimal(s: string) {
    |s| >= 1 && AllDigits(s) && (s[0] == '0' ==> |s| == 1)
  }

  function DigitChar(d: nat): (ch: char)
    requires d < 10
    ensures IsDigit(ch)
  {
    ('0' as int + d) as char
  }

  function DigitValue(ch: char): (d: nat)
    requires IsDigit(ch)
    ensures d < 10
  {
    ch as int - '0' as int
  }

  /** Python's `str(n)` for `n >= 0`. */
  function NatToString(n: nat): (r: string)
    ensures IsCanonicalDecimal(r)
    ensures r[0] == '0' <==> n == 0
  {
    if n < 10 then [DigitChar(n)]
    else NatToString(n / 10) + [DigitChar(n % 10)]
  }

  /** The value of a string of decimal digits. */
  function ParseNat(s: string): nat
    requires AllDigits(s)
  {
    if |s| == 0 then 0
    else 10 * ParseNat(s[..|s| - 1]) + DigitValue(s[|s| - 1])
  }

  /** Reading back `str(n)` gives `n`. */
  lemma {:induction false} ParseNatToString(n: nat)
    ensures ParseNat(NatToString(n)) == n
  {
    if n >= 10 {
      var p := NatToString(n / 10);
      var s := p + [DigitChar(n % 10)];
      assert s[..|s| - 1] == p;
      ParseNatToString(n / 10);
    }
  }

  /** A string of digits is at least its leading digit's value. */
  lemma {:induction false} ParseNatAtLeastLeading(s: string)
    requires |s| >= 1 && AllDigits(s)
    ensures ParseNat(s) >= DigitValue(s[0])
    decreases |s|
  {
    if |s| > 1 {
      ParseNatAtLeastLeading(s[..|s| - 1]);
    }
  }

  /** Every canonical decimal string is `str` of its value: `str` is a
      bijection between naturals and canonical decimal strings. */
  lemma {:induction false} NatToStringParse(s: string)
    requires IsCanonicalDecimal(s)
    ensures NatToString(ParseNat(s)) == s
    decreases |s|
  {
    if |s| == 1 {
      assert DigitChar(DigitValue(s[0])) == s[0];
    } else {
      var p := s[..|s| - 1];
      var d := DigitValue(s[|s| - 1]);
      assert IsCanonicalDecimal(p);
      ParseNatAtLeastLeading(p);
      NatToStringParse(p);
      var n := ParseNat(s);
      assert n == 10 * ParseNat(p) + d;
      assert n / 10 == ParseNat(p) && n % 10 == d;
      assert DigitChar(d) == s[|s| - 1];
      assert s == p + [s[|s| - 1]];
    }
  }
}

=== FILE: wrappers.dfy ===
/** Option and Result datatypes used throughout the model.
    An absent key of a Python dict is `None`; an exception raised by the
    backend is a `Failure`. */
module Wrappers {

  datatype Option<+T> = None | Some(value: T) {

    /** The value, or `default` when absent: Python's `d.get(key, default)`. */
    function GetOr(default: T): T {
      match this
      case Some(v) => v
      case None => default
    }
  }

  datatype Result<+R, +E> = Success(value: R) | Failure(error: E)
}
